=== FILE: README.md ===
# Chat application: presence, accounts, auth gate and client state, in Dafny

This project models the decision logic of a two-user real-time chat application, both
the server side and the browser side. Each part is written as pure functions over
immutable datatypes:

- **Presence registry** (`Presence`). The server keeps a map from user id to socket id.
  A socket's `connection` handler writes to it and its `disconnect` handler deletes
  from it. After every change the key set is broadcast as `getOnlineUsers`. A trace
  model (`Step`, `Run`) replays socket events over that map.
- **Message record** (`Messages`). The persisted message schema: ids are required and
  `text`, `image` and `seen` have defaults.
- **Account controllers** (`Accounts`). The guard order and outcomes of signup, login and
  profile update, over a users collection held as a sequence. Hashing, hash comparison,
  token signing and the image upload are function parameters.
- **Auth gate** (`AuthGate`). `protectRoute` takes the token from the `Authorization`
  header, falling back to the `token` header. It verifies the token through a parameter
  that stands for `jwt.verify`, then looks up the user.
- **Client chat state** (`ChatState`). The chat context's transitions for fetching
  users, fetching a conversation, sending a message and receiving a pushed
  `newMessage`. Each message is normalised with `senderID`/`receiverID` copies of its
  ids. The module also covers the socket listener subscription.
- **Login form** (`LoginForm`). The login page's mode, two-step signup flag and four
  fields, driven by submit, mode switch, back arrow and field edits.
- **Chat view** (`ChatView`). The send guards for text and images, the near-bottom
  auto-scroll test, and the two scroll effects.
- Two support modules: `JsValues` covers JavaScript truthiness, `undefined` and
  property-key coercion. `Strings` covers `trim`, `split` and `startsWith`.

External services are parameters or are left out:

- the database: a `seq`/`map`, with the new id passed in;
- bcrypt: `hash`, `matches`;
- JWT: `sign`, `verify`;
- Cloudinary: `upload`;
- HTTP replies: a `Reply` datatype;
- the DOM: scroll metrics and an `anchored` flag.

## Model

| member | source | states |
|---|---|---|
| Presence.Connect | server/server.js:20-30 | A truthy handshake `userId` maps to the new socket and overwrites any earlier socket of that user. An absent or empty one leaves the map unchanged, and so does "__proto__": on the plain `{}` map its assignment reaches the inherited setter and creates no key. No other entry changes. The broadcast equals the new key set in all cases. |
| Presence.Disconnect | server/server.js:39-42 | The closing socket's `userId` (an absent one is coerced to "undefined") is no longer a key. All other keys and values are unchanged. The broadcast equals the new key set. |
| Presence.Step | server/server.js:23-43 | Opening a new socket records it with its handshake `userId` and applies the `connection` handler to the registry. Closing an open socket forgets it and applies the `disconnect` handler (as written, or compare-and-delete) with the `userId` it captured. Events socket.io does not deliver change nothing. A step from a state whose broadcast is its key set keeps it so. |
| Presence.RunEntriesLive | server/server.js:20-42 | After any event sequence, every registry entry names an open socket whose handshake `userId` is that entry's key, and the last broadcast is the key set. |
| Presence.RunBroadcastsKeys | server/server.js:30-41 | With either disconnect, after any event sequence the last `getOnlineUsers` payload is exactly the registry's key set. |
| Presence.StaleDisconnect | server/server.js:27-41 | Take connect(u,s1), then connect(u,s2), then a disconnect of s1. Afterwards u is neither in the registry nor in the broadcast, although s2 is still open under u. |
| Presence.AnonymousDisconnect | server/server.js:24-41 | A socket without `userId` registers nothing. Its disconnect still deletes the entry of a user whose id is the string "undefined". |
| Presence.AsWrittenLastConnectionLoses | server/server.js:27-40 | On a trace with fresh socket ids, the as-written handlers break "the registry holds exactly the users whose newest socket is open". |
| Presence.DisconnectOwn | server/server.js:39-42 | The corrected disconnect removes the entry only when it names the closing socket. Entries naming other sockets survive. |
| Presence.FixedRunLastConnectionWins | server/server.js:23-42 | With the corrected disconnect and fresh socket ids, the registry holds exactly the users whose newest socket is still open, each mapped to that socket. |
| Messages.MissingPaths | server/models/message.js:22-31 | The validation error lists `senderId` iff it is missing, and `receiverId` iff it is missing. |
| Messages.Create | server/models/message.js:21-44 | A draft missing `senderId` or `receiverId` is rejected. Otherwise the message keeps the given ids. `text` and `image` default to "" and `seen` defaults to false. |
| Messages.CreateDraftOf | server/models/message.js:21-44 | Creating a message from all of a stored message's fields gives back that message. |
| Messages.TextAndImageUnrelated | server/models/message.js:32-39 | A message with `text` and `image` both empty is accepted, and so is one with both set. |
| Accounts.FindFirst | server/controllers/userController.js:16 | The found index is the first document matching the query. No match means no document matches. |
| Accounts.Signup | server/controllers/userController.js:7-41 | A missing field gives "Missing Details". That check comes before the check for a registered email, which gives "Account already exists". Both failures leave the directory unchanged. A success appends exactly one document with the hashed password and returns a token signed for the new id. |
| Accounts.SignupPreservesUniqueness | server/controllers/userController.js:16-27 | Signup keeps emails unique. It keeps ids unique when the new id is unused. |
| Accounts.SignupStoresNoPlaintext | server/controllers/userController.js:22-27 | When the hash never returns its input, the stored password differs from the plaintext. |
| Accounts.Login | server/controllers/userController.js:44-78 | Empty email or password gives "Email and password required". An unknown email and a wrong password both give "Invalid credentials". Success returns the found user and a token signed for its id. The directory is only read. |
| Accounts.SignupThenLogin | server/controllers/userController.js:22-71 | Assume the comparison accepts each password against its own hash. Then logging in right after a successful signup returns the new user and the same token. |
| Accounts.RefusedSignupThenLogin | server/controllers/userController.js:12-56 | A signup refused with "Missing Details" adds nothing, so a login with that email is refused with "Invalid credentials". |
| Accounts.UpdateProfile | server/controllers/userController.js:86-113 | Without a truthy `profilePic`, only bio and full name are written and the picture is kept. With one, the upload's URL is stored too. Other documents, the id, the email and the password are unchanged. An unknown id gives a null user. |
| Accounts.UpdateProfilePreservesUniqueness | server/controllers/userController.js:92-104 | A profile update keeps emails and ids unique. |
| AuthGate.BearerPiece | server/middleware/auth.js:7 | The piece is absent without a header, and otherwise present iff the header contains a space. A present piece contains no space and is what lies between the first space and the next space or the end: the header is a space-free word, a space, the piece, then nothing or text starting with a space. |
| AuthGate.ExtractToken | server/middleware/auth.js:7 | A truthy second piece of `Authorization` is the token. Otherwise the `token` header is used. |
| AuthGate.AnySchemeWord | server/middleware/auth.js:7 | For any space-free word, "<word> <token>" yields the token. The scheme word is not checked, so "Token abc" gives "abc". |
| AuthGate.SecondPiece | server/middleware/auth.js:7 | For every header "<word> <piece><rest>" with a space-free word and piece and a rest that is empty or starts with a space, the second piece is the piece, so "Bearer abc def" gives "abc". An empty piece falls back to the `token` header. |
| AuthGate.EmptyBearerFallsBack | server/middleware/auth.js:7 | "Bearer" and "Bearer " have no usable second piece, so the `token` header is used. |
| AuthGate.DoubleSpaceFallsBack | server/middleware/auth.js:7 | "Bearer  abc" (two spaces) has an empty second piece, so the `token` header is used although a token follows. |
| AuthGate.ProtectRoute | server/middleware/auth.js:4-27 | No token gives "jwt must be provided". A verification failure replies with its error. A decoded id without a user gives "User not found". In all three cases `next` is not called. A decoded id that names a stored user calls `next` exactly once, with that user minus its password, and `next` is called in no other case. |
| AuthGate.BearerTokenAdmits | server/middleware/auth.js:7-22 | A "Bearer" token that verifies to a registered id passes the gate with that user. |
| ChatState.Normalize | client/context/ChatContext.jsx:72-76 | The normalised message keeps the document and adds `senderID`/`receiverID` equal to its `senderId`/`receiverId`. |
| ChatState.GetUsers | client/context/ChatContext.jsx:16-26 | A successful reply replaces users and unseen counts with the server's. A failure or a thrown request changes nothing. |
| ChatState.GetMessages | client/context/ChatContext.jsx:29-44 | A successful reply replaces the messages with a list of the same length and order, each element the normalised reply element. Anything else changes nothing. |
| ChatState.SendMessage | client/context/ChatContext.jsx:47-64 | With no selected user nothing is posted and nothing changes. Otherwise the message is posted to the selected user. A success appends exactly one normalised message and leaves earlier ones unchanged. A failure changes nothing. |
| ChatState.OnNewMessage | client/context/ChatContext.jsx:70-88 | A message from the selected user is appended with `seen` set and a mark-seen request for its id, and unseen counts stay unchanged. Any other message leaves the list unchanged. It sets its sender's count to the old count (or 0) plus one, and every other count stays unchanged. |
| ChatState.OneEffectPerMessage | client/context/ChatContext.jsx:78-87 | Each push either appends one message or adds one to the unseen total, never both and never neither. |
| ChatState.Subscribe | client/context/ChatContext.jsx:67-70 | Without a socket nothing is registered. With one, exactly one more `newMessage` listener is registered and the listeners of every other event are kept. |
| ChatState.Unsubscribe | client/context/ChatContext.jsx:92-94 | `off("newMessage")` leaves no `newMessage` listener and keeps the listeners of every other event. |
| ChatState.ResubscribeKeepsOneListener | client/context/ChatContext.jsx:96-99 | The effect's cleanup followed by a new subscription leaves exactly one `newMessage` listener. |
| ChatState.RunNormalised | client/context/ChatContext.jsx:7-111 | After any sequence of replies to `getUsers`, `getMessages` and `sendMessages`, `newMessage` pushes and calls of the exported setters, every held message has `senderID`/`receiverID` equal to its `senderId`/`receiverId`. |
| ChatState.ApplyKeepsNormalised | client/context/ChatContext.jsx:16-99 | Each of those transitions keeps every held message normalised. |
| LoginForm.OnSubmit | client/src/pages/LoginPage.jsx:16-41 | In step one of signup, a submit only sets the step flag. A missing signup field or login credential gives a toast and no call. Otherwise `login` is called once with "signup" iff the mode is "Sign up", passing the four current fields. |
| LoginForm.SwitchTo | client/src/pages/LoginPage.jsx:44-52 | A mode switch sets the new mode, clears the step flag and empties all four fields. |
| LoginForm.Step | client/src/pages/LoginPage.jsx:16-139 | A submit is `onSubmitHandler`, and a mode switch is `handleModeSwitch` with no other effect. The back arrow clears the flag and keeps the values. An edit writes only the field the page currently shows. |
| LoginForm.RunValid | client/src/pages/LoginPage.jsx:7-51 | From the initial form ("Sign up", flag false, fields empty), the step flag is set only in "Sign up" mode, after any events. |
| LoginForm.SubmitKeepsValues | client/src/pages/LoginPage.jsx:16-41 | A submit never changes the four values. It changes the form only by setting the step flag, without any call. |
| Strings.Trim | client/src/components/ChatContainer.jsx:22-23 | The result is an infix of the input with only whitespace outside it, and it neither starts nor ends with whitespace. It is empty iff the input is all whitespace. |
| Strings.SplitJoin | server/middleware/auth.js:7 | Splitting a join of space-free pieces gives the pieces back. |
| Strings.Split | server/middleware/auth.js:7 | `split` yields at least one piece, no piece contains the separator, and joining the pieces with the separator gives the input back. |
| ChatView.SendText | client/src/components/ChatContainer.jsx:20-26 | Whitespace-only input sends nothing and changes nothing. Otherwise the trimmed, non-empty text is sent, the input is cleared and auto-scroll is turned on. |
| ChatView.SentTextIsTrimmed | client/src/components/ChatContainer.jsx:22-23 | The sent text has no whitespace at either end. |
| ChatView.SendImage | client/src/components/ChatContainer.jsx:29-43 | A missing file, or one whose type does not start with "image/", sends nothing. Otherwise the file's data URL is sent and auto-scroll is turned on. |
| ChatView.OnScroll | client/src/components/ChatContainer.jsx:46-55 | With a container, auto-scroll becomes `scrollHeight - scrollTop <= clientHeight + 100`. Without one nothing changes. |
| ChatView.NearBottomBounds | client/src/components/ChatContainer.jsx:51-53 | At the very bottom auto-scroll is on. More than 100 pixels above it, auto-scroll is off. |
| ChatView.OnSelect | client/src/components/ChatContainer.jsx:57-63 | Selecting a user fetches that user's messages, turns auto-scroll on and sets the initial-load flag. |
| ChatView.OnMessages | client/src/components/ChatContainer.jsx:65-83 | The initial run jumps to the end, clears the flag and keeps the remembered length. A later run scrolls smoothly iff auto-scroll is on and the list grew, and then remembers the current length. |
| ChatView.StaleLengthAfterSwitch | client/src/components/ChatContainer.jsx:57-83 | After a switch the jump keeps the old count, so the next run scrolls smoothly again although the list has not changed. |
| ChatView.NoRescrollWithoutGrowth | client/src/components/ChatContainer.jsx:77-81 | Two later runs over an unchanged list: the second never scrolls. |
| ChatView.RunEffects | client/src/components/ChatContainer.jsx:57-83 | A commit runs the selection effect iff its dependencies changed, then the scroll effect iff its dependencies changed. Only the selection effect fetches. With a user selected, the selection effect turns auto-scroll on and sets the initial-load flag. A scroll effect run in the same commit (with the end of the list mounted) jumps and clears the flag, keeping the remembered length. Otherwise the outcome is that of `OnMessages` alone, or nothing. |
| ChatView.Settle | client/src/components/ChatContainer.jsx:57-83 | A commit is followed by a second commit exactly when its selection effect changed auto-scroll. That happens only when a user is selected and auto-scroll was off. The second commit runs only the scroll effect. |
| ChatView.ListChanged | client/context/ChatContext.jsx:29-44 | As written, a list change re-runs the selection effect and fetches the selected user's history. With a `getMessages` of stable identity it fetches nothing and causes exactly one commit. |
| ChatView.SelectCommit | client/src/components/ChatContainer.jsx:57-63 | Selecting a user fetches that user's history, and its first commit does not scroll. Auto-scroll ends up on. A second commit follows iff auto-scroll was off, and it jumps to the end of the list still shown, spending the initial-load flag. |
| ChatView.ScrollCommit | client/src/components/ChatContainer.jsx:46-55 | After a scroll, auto-scroll equals the near-bottom test. It causes one commit and fetches nothing. |
| ChatView.AsWrittenListChangeJumps | client/src/components/ChatContainer.jsx:57-83 | As written, any list change while a user is selected first jumps to the end. This holds for every view, including one just scrolled more than 100 pixels above the bottom. If auto-scroll was off and the list grew, a second, smooth scroll follows. |
| ChatView.SwitchWhileScrolledAway | client/src/components/ChatContainer.jsx:57-83 | Take a switch of conversation made with auto-scroll off. Its second commit jumps on the previous conversation's list. As written, the history reply jumps again. With a stable `getMessages`, the reply scrolls smoothly iff the history is longer than the remembered length, and does not scroll otherwise. |
| ChatView.AsWrittenHistoryRefetches | client/context/ChatContext.jsx:29-44 | As written, each of any number of history replies causes one more fetch of the same history. |
| ChatView.StableFetchSettles | client/src/components/ChatContainer.jsx:57-63 | With a stable `getMessages`, no history reply causes a fetch. |
| ChatView.ScrollDecidesFollow | client/src/components/ChatContainer.jsx:46-83 | With a stable `getMessages`, take a scroll followed by a list change that grows the list. The change gives one commit. That commit scrolls smoothly iff the scroll ended within 100 pixels of the bottom, and it fetches nothing. |
| ChatView.SendScrollsIntoView | client/src/components/ChatContainer.jsx:20-83 | With a stable `getMessages`, a text or image send that goes out turns auto-scroll on. The single commit that adds the message then scrolls the grown list smoothly, wherever the user had scrolled. |

## Findings

| source | as written | input that shows it | evidently intended | confidence | as-written member | corrected member |
|---|---|---|---|---|---|---|
| server/server.js:40 | `disconnect` deletes the entry under the socket's user id, whichever socket that entry names | connect(u, s1), connect(u, s2), then disconnect s1: u shows offline although s2 is open | delete only when the entry still names the closing socket, so the newest connection wins | medium, not executed | Presence.AsWrittenLastConnectionLoses | Presence.FixedRunLastConnectionWins |
| client/context/ChatContext.jsx:29 | `getMessages` is a new function on every provider render and is a dependency of the view's selection effect (client/src/components/ChatContainer.jsx:63), so every change of the message list re-runs that effect and re-sets the initial-load flag before the scroll effect runs | select a user, scroll more than 100 px above the bottom, receive a message from that user: the view jumps to the end | a list change scrolls only when the user is near the bottom (ChatContainer.jsx:74-79) | medium, not executed | ChatView.AsWrittenListChangeJumps | ChatView.ScrollDecidesFollow |
| client/context/ChatContext.jsx:29 | the same re-run fetches the selected user's history again, and that history reply is itself a list change | select a user: the reply's commit fetches again, and so on without end | the history is fetched once per selection | medium, not executed | ChatView.AsWrittenHistoryRefetches | ChatView.StableFetchSettles |

`Presence.Disconnect` is the handler as written and `Presence.DisconnectOwn` is the
corrected one. `Presence.Step` and `Presence.Run` take a flag that selects between them.
In the same way, `ChatView.ListChanged` takes a flag: as written, or with a `getMessages`
whose identity is stable across provider renders (as `useCallback` would give). For the
refetch row, the fact itself is `ChatView.ListChanged`'s fetch clause. The two lemmas
carry it over any number of replies.

A stable `getMessages` does not fix everything. Take a conversation switch made while
scrolled away (`ChatView.SwitchWhileScrolledAway`). There, the follow-up commit from
`setIsAutoScrollEnabled(true)` spends the initial-load jump on the previous list. The new
history is then jumped to only as written. With the stable version it is scrolled to only
if it is longer than the remembered length.

## Left out

- Transport and bootstrap. Neither the socket.io transport nor the delivery of `io.emit`
  is modelled, and neither is CORS, Express, the body limit or server start-up. They
  are I/O and library plumbing. The broadcast is modelled only as its payload.
- Presence.Connect: the `getOnlineUsers` payload is `Object.keys`, an array that lists
  integer-like keys (such as "42") first in ascending order and the other keys in
  insertion order. The model states it as a set, so the order is not stated.
- Database errors. MongoDB/Mongoose failures are not modelled: the `catch` branches of
  signup, login and updateProfile reply with the raw error text from an external
  datastore. Timestamps, `ref` integrity and ObjectId cast errors are left out too.
  Ids are plain strings.
- server/models/User.js is not part of this model. A new user's `profilePic` is taken to
  be "". Nothing here assumes a database index on `email`. Email uniqueness is proved only
  for signups that run one at a time (see `Accounts.Signup` below).
- Accounts.Signup: each request is one atomic step. The controller awaits between the
  `findOne` lookup and `User.create`. Two signups for the same email that interleave
  both pass the lookup, so `Accounts.SignupPreservesUniqueness` covers only serial
  requests.
- Accounts.Signup: body fields are strings or absent. A JSON object such as
  `{"$ne": null}` is truthy and would reach `findOne` as a query operator. A non-string
  password would make bcrypt throw into the `catch`. Neither case is modelled.
- Accounts.Login: body fields are strings or absent. An object-valued `email` reaching
  `findOne` as a query operator, and a non-string password making bcrypt throw, are not
  modelled.
- Accounts.UpdateProfile: `null` values in the JSON body are not modelled. An omitted
  field is modelled as Mongoose's dropping of `undefined` update keys, so the stored
  value is kept.
- Cryptography and upload. bcrypt salting, hashing and comparison, JWT signing and
  verification, and the Cloudinary upload are uninterpreted parameters, since their
  cryptography and network calls cannot be verified here. A failing upload is not
  modelled.
- `checkAuth` is not modelled. It only echoes `req.user`.
- Client I/O and UI. axios calls, toasts in the chat context, JSX rendering, CSS,
  `FileReader`, `scrollIntoView` and resetting the file input are left out. They are
  UI and I/O, and appear only as returned effects: the posted receiver, the mark-seen
  id, the fetched user, the scroll kind and the login call.
- Async ordering. Replies that arrive out of order, and a `getMessages` reply for a
  conversation that is no longer selected, are not modelled. Each reply is applied as
  one transition.
- React scheduling. `ChatView.RunEffects` models which effects a commit runs, from the
  dependency changes. `ChatView.Settle` adds the follow-up commit that the selection
  effect's auto-scroll update causes. The state changes modelled are:
  - a scroll (`ChatView.ScrollCommit`);
  - a list change (`ChatView.ListChanged`);
  - a selection (`ChatView.SelectCommit`).

  A provider render caused by the users list or the unseen counts is not modelled. Nor is
  a correction of the conversation-switch case above: the model does not define what the
  view should do there.
- ChatView.SendScrollsIntoView: the message list update from `sendMessages` and the view's
  own `setInput`/`setIsAutoScrollEnabled` are taken to land in one commit, as React 18
  automatic batching gives. Under separate commits, a send made while scrolled away
  would not scroll. The React version is not part of this model.
- ChatState.Subscribe: a listener is recorded by event name only. The `selectedUser`
  its closure captures is taken to be the current one, which holds because the effect
  re-subscribes whenever the selected user changes.
- Browser constraint validation of `required` inputs, which can block a submit before
  the handler runs, is browser behaviour and is left out.
- Scroll metrics. DOM scroll values, which may be fractional, are integers here.
- Out of scope. The message send, mark and users controllers and the server-side unseen
  counts are not part of this model. Neither are the commented-out schema and
  disconnect handler.

=== FILE: accounts.dfy ===
/** The account controllers' decisions: signup, login and profile update over a user
    directory. Password hashing, its comparison, token signing and the image upload are
    parameters the model does not interpret. */
module Accounts {
  import opened JsValues

  type UserId = string

  /** A stored user document. `password` holds the hash, never the plaintext. */
  datatype User = User(
    id: UserId,
    email: string,
    fullName: string,
    password: string,
    bio: string,
    profilePic: string)
  {
    /** The document as `select("-password")` returns it. */
    function Public(): Profile {
      Profile(id, email, fullName, bio, profilePic)
    }
  }

  /** A user document without its password. */
  datatype Profile = Profile(id: UserId, email: string, fullName: string, bio: string, profilePic: string)

  /** The users collection, in insertion order. */
  type Directory = seq<User>

  ghost predicate UniqueEmails(dir: Directory) {
    forall i, j :: 0 <= i < j < |dir| ==> dir[i].email != dir[j].email
  }

  ghost predicate UniqueIds(dir: Directory) {
    forall i, j :: 0 <= i < j < |dir| ==> dir[i].id != dir[j].id
  }

  /** The index of the first document satisfying `p`, as `findOne` returns it. */
  function FindFirst(dir: Directory, p: User -> bool): (r: Option<nat>)
    ensures r.Some? ==> r.value < |dir| && p(dir[r.value])
    ensures r.Some? ==> forall j :: 0 <= j < r.value ==> !p(dir[j])
    ensures r.None? ==> forall j :: 0 <= j < |dir| ==> !p(dir[j])
  {
    if |dir| == 0 then None
    else if p(dir[0]) then Some(0)
    else
      match FindFirst(dir[1..], p)
      case None => None
      case Some(i) => Some(i + 1)
  }

  function FindByEmail(dir: Directory, email: string): Option<nat> {
    FindFirst(dir, (u: User) => u.email == email)
  }

  function FindById(dir: Directory, id: UserId): Option<nat> {
    FindFirst(dir, (u: User) => u.id == id)
  }

  /** The JSON body of a controller's reply. */
  datatype Outcome =
    | Failure(message: string)
    | Success(user: User, token: string, message: string)

  /** A reply together with the directory after the request. */
  datatype Reply = Reply(dir: Directory, outcome: Outcome)

  datatype SignupForm = SignupForm(fullName: Field, email: Field, password: Field, bio: Field)

  predicate Complete(f: SignupForm) {
    Truthy(f.fullName) && Truthy(f.email) && Truthy(f.password) && Truthy(f.bio)
  }

  /** `signup`: missing fields are refused first, then a registered email; otherwise one
      document is added holding the salted hash of the password, and a token for its id
      is returned. `newId` is the id the database assigns; `salt` the generated salt. */
  function Signup(dir: Directory, f: SignupForm, newId: UserId, salt: string,
                  hash: (string, string) -> string, sign: UserId -> string): (r: Reply)
    ensures !Complete(f) ==> r == Reply(dir, Failure("Missing Details"))
    ensures Complete(f) && FindByEmail(dir, f.email.value).Some? ==>
              r == Reply(dir, Failure("Account already exists"))
    ensures r.outcome.Success? <==> Complete(f) && FindByEmail(dir, f.email.value).None?
    ensures r.outcome.Success? ==>
      && |r.dir| == |dir| + 1 && r.dir[..|dir|] == dir
      && r.dir[|dir|] == r.outcome.user
      && r.outcome.user.id == newId
      && r.outcome.user.email == f.email.value
      && r.outcome.user.fullName == f.fullName.value
      && r.outcome.user.bio == f.bio.value
      && r.outcome.user.password == hash(f.password.value, salt)
      && r.outcome.token == sign(newId)
  {
    if !Complete(f) then Reply(dir, Failure("Missing Details"))
    else if FindByEmail(dir, f.email.value).Some? then Reply(dir, Failure("Account already exists"))
    else
      var u := User(newId, f.email.value, f.fullName.value, hash(f.password.value, salt), f.bio.value, "");
      Reply(dir + [u], Success(u, sign(newId), "Account created successfully"))
  }

  /** `login`: the directory is only read. An unknown email and a wrong password get the
      same reply. `matches(plain, hashed)` is the hash comparison. */
  function Login(dir: Directory, email: Field, password: Field,
                 matches: (string, string) -> bool, sign: UserId -> string): (r: Outcome)
    ensures !Truthy(email) || !Truthy(password) ==> r == Failure("Email and password required")
    ensures Truthy(email) && Truthy(password) && FindByEmail(dir, email.value).None? ==>
              r == Failure("Invalid credentials")
    ensures r.Success? <==>
      && Truthy(email) && Truthy(password)
      && FindByEmail(dir, email.value).Some?
      && matches(password.value, dir[FindByEmail(dir, email.value).value].password)
    ensures r.Success? ==>
      && r.user == dir[FindByEmail(dir, email.value).value]
      && r.user.email == email.value
      && r.token == sign(r.user.id)
    ensures r.Failure? && Truthy(email) && Truthy(password) ==> r == Failure("Invalid credentials")
  {
    if !Truthy(email) || !Truthy(password) then Failure("Email and password required")
    else match FindByEmail(dir, email.value)
      case None => Failure("Invalid credentials")
      case Some(i) =>
        if !matches(password.value, dir[i].password) then Failure("Invalid credentials")
        else Success(dir[i], sign(dir[i].id), "Login successful")
  }

  datatype ProfileForm = ProfileForm(profilePic: Field, bio: Field, fullName: Field)

  /** A field of an update document: an omitted value leaves the stored one. */
  function Assign(stored: string, given: Field): string {
    given.ValueOr(stored)
  }

  /** The profile update reply: `success` is always true, and `user` is null when no
      document has the id. */
  datatype ProfileReply = ProfileReply(dir: Directory, user: Option<User>)

  /** `updateProfile` for the authenticated user `id`: without a truthy `profilePic` only
      bio and full name are written; with one, the picture is uploaded first and its URL
      stored as well. */
  function UpdateProfile(dir: Directory, id: UserId, f: ProfileForm, upload: string -> string): (r: ProfileReply)
    ensures |r.dir| == |dir|
    ensures FindById(dir, id).None? ==> r == ProfileReply(dir, None)
    ensures FindById(dir, id).Some? ==>
      var i := FindById(dir, id).value;
      && r.user == Some(r.dir[i])
      && (forall j :: 0 <= j < |dir| && j != i ==> r.dir[j] == dir[j])
      && r.dir[i].id == dir[i].id && r.dir[i].email == dir[i].email && r.dir[i].password == dir[i].password
      && r.dir[i].bio == Assign(dir[i].bio, f.bio)
      && r.dir[i].fullName == Assign(dir[i].fullName, f.fullName)
      && r.dir[i].profilePic == (if Truthy(f.profilePic) then upload(f.profilePic.value) else dir[i].profilePic)
  {
    match FindById(dir, id)
    case None => ProfileReply(dir, None)
    case Some(i) =>
      var stored := dir[i];
      var pic := if Truthy(f.profilePic) then upload(f.profilePic.value) else stored.profilePic;
      var u := stored.(bio := Assign(stored.bio, f.bio), fullName := Assign(stored.fullName, f.fullName), profilePic := pic);
      ProfileReply(dir[i := u], Some(u))
  }

  /** Signup keeps emails unique, and ids too when the new id is unused. */
  lemma SignupPreservesUniqueness(dir: Directory, f: SignupForm, newId: UserId, salt: string,
                                  hash: (string, string) -> string, sign: UserId -> string)
    requires UniqueEmails(dir) && UniqueIds(dir)
    requires FindById(dir, newId).None?
    ensures UniqueEmails(Signup(dir, f, newId, salt, hash, sign).dir)
    ensures UniqueIds(Signup(dir, f, newId, salt, hash, sign).dir)
  {
  }

  /** A profile update keeps emails and ids unique: neither is written. */
  lemma UpdateProfilePreservesUniqueness(dir: Directory, id: UserId, f: ProfileForm, upload: string -> string)
    requires UniqueEmails(dir) && UniqueIds(dir)
    ensures UniqueEmails(UpdateProfile(dir, id, f, upload).dir)
    ensures UniqueIds(UpdateProfile(dir, id, f, upload).dir)
  {
  }

  /** Signing up and then logging in with the same email and password finds the new
      account, provided the hash comparison accepts each password against its own hash. */
  lemma SignupThenLogin(dir: Directory, f: SignupForm, newId: UserId, salt: string,
                         hash: (string, string) -> string, matches: (string, string) -> bool,
                         sign: UserId -> string)
    requires forall p, s :: matches(p, hash(p, s))
    requires Signup(dir, f, newId, salt, hash, sign).outcome.Success?
    ensures var r := Signup(dir, f, newId, salt, hash, sign);
      Login(r.dir, f.email, f.password, matches, sign) == Success(r.outcome.user, r.outcome.token, "Login successful")
  {
  }

  /** A signup refused for missing details adds nothing, so a login with that email is
      still refused. */
  lemma RefusedSignupThenLogin(dir: Directory, f: SignupForm, newId: UserId, salt: string,
                               hash: (string, string) -> string, matches: (string, string) -> bool,
                               sign: UserId -> string)
    requires !Complete(f) && Truthy(f.email) && Truthy(f.password)
    requires FindByEmail(dir, f.email.value).None?
    ensures var r := Signup(dir, f, newId, salt, hash, sign);
      && r.outcome == Failure("Missing Details")
      && Login(r.dir, f.email, f.password, matches, sign) == Failure("Invalid credentials")
  {
  }

  /** When the hash never returns its input, the stored password differs from the
      plaintext. */
  lemma SignupStoresNoPlaintext(dir: Directory, f: SignupForm, newId: UserId, salt: string,
                                hash: (string, string) -> string, sign: UserId -> string)
    requires forall p, s :: hash(p, s) != p
    requires Signup(dir, f, newId, salt, hash, sign).outcome.Success?
    ensures Signup(dir, f, newId, salt, hash, sign).outcome.user.password != f.password.value
  {
  }
}

=== FILE: auth_gate.dfy ===
/** `protectRoute`: the token comes from the second space-separated piece of the
    `Authorization` header, or else from the `token` header; it is verified, its user id
    looked up, and only then is the request passed on with the user attached. */
module AuthGate {
  import opened JsValues
  import opened Strings
  import opened Accounts

  /** The two request headers the gate reads. */
  datatype Headers = Headers(authorization: Field, token: Field)

  /** What `jwt.verify` yields: the decoded payload's `userId` (possibly absent), or the
      error it throws. */
  datatype Verified = Decoded(userId: Option<UserId>) | Rejected(error: string)

  /** `req.headers.authorization?.split(' ')[1]`: absent when the header is absent or has
      no space; otherwise the text between the first space and the next one (or the end).
      The word before the first space is not looked at. */
  function BearerPiece(authorization: Field): (r: Field)
    ensures authorization.None? ==> r.None?
    ensures authorization.Some? ==> (r.Some? <==> ' ' in authorization.value)
    ensures r.Some? ==> ' ' !in r.value
    ensures r.Some? ==> IsSecondPiece(authorization.value, r.value)
  {
    match authorization
    case None => None
    case Some(h) =>
      var parts := Split(h, ' ');
      if |parts| > 1 then
        SecondPieceShape(h, parts);
        Some(parts[1])
      else None
  }

  /** `h` is a space-free word, a space, `piece`, and then nothing or text starting with a
      space. */
  ghost predicate IsSecondPiece(h: string, piece: string) {
    exists word, rest ::
      && h == word + " " + piece + rest
      && ' ' !in word
      && (rest == "" || rest[0] == ' ')
  }

  /** The second piece of a split sits between the first space and the next one. */
  lemma SecondPieceShape(h: string, parts: seq<string>)
    requires parts == Split(h, ' ') && |parts| > 1
    ensures IsSecondPiece(h, parts[1])
  {
    var rest := if |parts| == 2 then "" else " " + Join(parts[2..], ' ');
    JoinSecond(parts, ' ');
    assert ' ' !in parts[0];
    assert h == parts[0] + " " + parts[1] + rest;
    assert rest == "" || rest[0] == ' ';
  }

  /** The first two pieces of a join, and what follows them. */
  lemma JoinSecond(parts: seq<string>, sep: char)
    requires |parts| >= 2
    ensures Join(parts, sep) == parts[0] + [sep] + parts[1] + (if |parts| == 2 then [] else [sep] + Join(parts[2..], sep))
  {
    assert parts[1..][1..] == parts[2..];
  }

  /** `BearerPiece(...) || req.headers.token` */
  function ExtractToken(h: Headers): (r: Field)
    ensures Truthy(BearerPiece(h.authorization)) ==> r == BearerPiece(h.authorization)
    ensures !Truthy(BearerPiece(h.authorization)) ==> r == h.token
  {
    Or(BearerPiece(h.authorization), h.token)
  }

  /** The gate's effect on the request: the JSON reply it sends, if any, the user it
      attaches to `req.user`, and how many times it calls `next`. */
  datatype GateResult = GateResult(reply: Option<string>, user: Option<Profile>, nextCalls: nat)

  /** `protectRoute`. `verify` stands for `jwt.verify` with the server's secret. */
  function ProtectRoute(h: Headers, verify: string -> Verified, dir: Directory): (r: GateResult)
    ensures r.nextCalls <= 1
    ensures r.nextCalls == 1 <==> r.reply.None?
    ensures r.user.Some? <==> r.nextCalls == 1
    ensures !Truthy(ExtractToken(h)) ==> r == GateResult(Some("jwt must be provided"), None, 0)
    ensures Truthy(ExtractToken(h)) && verify(ExtractToken(h).value).Rejected? ==>
              r == GateResult(Some(verify(ExtractToken(h).value).error), None, 0)
    ensures Truthy(ExtractToken(h)) && verify(ExtractToken(h).value).Decoded? ==>
      var id := verify(ExtractToken(h).value).userId;
      id.Some? && FindById(dir, id.value).Some? ==>
        r == GateResult(None, Some(dir[FindById(dir, id.value).value].Public()), 1)
    ensures r.nextCalls == 1 ==>
      && Truthy(ExtractToken(h))
      && verify(ExtractToken(h).value).Decoded?
      && var id := verify(ExtractToken(h).value).userId;
      && id.Some? && FindById(dir, id.value).Some?
      && r.user == Some(dir[FindById(dir, id.value).value].Public())
    ensures Truthy(ExtractToken(h)) && verify(ExtractToken(h).value).Decoded? ==>
      var id := verify(ExtractToken(h).value).userId;
      id.None? || FindById(dir, id.value).None? ==> r == GateResult(Some("User not found"), None, 0)
  {
    var token := ExtractToken(h);
    if !Truthy(token) then GateResult(Some("jwt must be provided"), None, 0)
    else match verify(token.value)
      case Rejected(error) => GateResult(Some(error), None, 0)
      case Decoded(userId) =>
        // findById(undefined) finds nothing
        var found := if userId.None? then None else FindById(dir, userId.value);
        match found
        case None => GateResult(Some("User not found"), None, 0)
        case Some(i) => GateResult(None, Some(dir[i].Public()), 1)
  }

  /** Any scheme word is accepted: "<word> <token>" yields the token, whenever neither
      contains a space and the token is not empty. */
  lemma AnySchemeWord(word: string, token: string, fallback: Field)
    requires ' ' !in word && ' ' !in token && token != ""
    ensures ExtractToken(Headers(Some(word + " " + token), fallback)) == Some(token)
  {
  }

  /** Whatever follows the second space is ignored: the piece between the first two spaces
      is the token, and an empty piece (two spaces in a row) falls back to the `token`
      header. */
  lemma SecondPiece(word: string, token: string, rest: string, fallback: Field)
    requires ' ' !in word && ' ' !in token && (rest == "" || rest[0] == ' ')
    ensures BearerPiece(Some(word + " " + token + rest)) == Some(token)
    ensures ExtractToken(Headers(Some(word + " " + token + rest), fallback))
         == if token == "" then fallback else Some(token)
  {
    var h := word + " " + token + rest;
    assert h == word + [' '] + (token + rest);
    SplitFirst(word, ' ', token + rest);
    SplitHead(token, ' ', rest);
  }

  /** The header "Bearer" alone, or "Bearer " followed by nothing, falls back to the `token`
      header. */
  lemma EmptyBearerFallsBack(fallback: Field)
    ensures ExtractToken(Headers(Some("Bearer"), fallback)) == fallback
    ensures ExtractToken(Headers(Some("Bearer "), fallback)) == fallback
  {
    assert ' ' !in "Bearer";
    SecondPiece("Bearer", "", "", fallback);
    assert "Bearer" + " " + "" + "" == "Bearer ";
  }

  /** Two spaces after the scheme word leave an empty second piece, so the `token`
      header is used even though a token follows. */
  lemma DoubleSpaceFallsBack(fallback: Field)
    ensures ExtractToken(Headers(Some("Bearer  abc"), fallback)) == fallback
  {
    SecondPiece("Bearer", "", " abc", fallback);
    assert "Bearer" + " " + "" + " abc" == "Bearer  abc";
  }

  /** A valid token for a registered user passes the gate with that user, password
      removed, whatever the `token` header holds. */
  lemma BearerTokenAdmits(token: string, fallback: Field, verify: string -> Verified,
                                            dir: Directory, i: nat)
    requires ' ' !in token && token != ""
    requires i < |dir| && UniqueIds(dir)
    requires verify(token) == Decoded(Some(dir[i].id))
    ensures ProtectRoute(Headers(Some("Bearer " + token), fallback), verify, dir)
         == GateResult(None, Some(dir[i].Public()), 1)
  {
    SecondPiece("Bearer", token, "", fallback);
    assert "Bearer" + " " + token + "" == "Bearer " + token;
    var k := FindById(dir, dir[i].id);
    assert k.Some? && k.value == i;
  }
}

=== FILE: chat_state.dfy ===
/** The client's chat state (the chat context provider): the open conversation's
    messages, the sidebar users, the unseen counts per sender, and the selected user.
    Every transition is a pure function of the state and the server's reply. */
module ChatState {
  import opened JsValues
  import opened Messages
  import opened Accounts

  /** A message as the client holds it: the server's document plus the upper-case
      `senderID`/`receiverID` copies of its ids. */
  datatype ClientMessage = ClientMessage(msg: Message, senderID: string, receiverID: string)

  /** `{...msg, senderID: msg.senderId, receiverID: msg.receiverId}` */
  function Normalize(m: Message): (c: ClientMessage)
    ensures c.msg == m
    ensures c.senderID == c.msg.senderId && c.receiverID == c.msg.receiverId
  {
    ClientMessage(m, m.senderId, m.receiverId)
  }

  datatype State = State(
    messages: seq<ClientMessage>,
    users: seq<Profile>,
    unseen: map<UserId, int>,
    selected: Option<Profile>)

  const Initial := State([], [], map[], None)

  /** An HTTP reply: the request threw (network error or non-2xx status), or the server
      answered with a `success` flag and a body. */
  datatype Reply<T> = Thrown | Answered(success: bool, body: T)

  predicate Succeeded<T>(r: Reply<T>) {
    r.Answered? && r.success
  }

  /** The body of `GET /api/messages/users`. */
  datatype UsersBody = UsersBody(users: seq<Profile>, unseenMessages: map<UserId, int>)

  /** `getUsers`: a successful reply replaces users and unseen counts; anything else
      changes nothing. */
  function GetUsers(st: State, reply: Reply<UsersBody>): (st': State)
    ensures Succeeded(reply) ==> st'.users == reply.body.users && st'.unseen == reply.body.unseenMessages
    ensures !Succeeded(reply) ==> st' == st
    ensures st'.messages == st.messages && st'.selected == st.selected
  {
    if Succeeded(reply) then st.(users := reply.body.users, unseen := reply.body.unseenMessages) else st
  }

  /** `getMessages`: a successful reply replaces the message list with the history,
      normalised element by element, in the server's order. */
  function GetMessages(st: State, reply: Reply<seq<Message>>): (st': State)
    ensures Succeeded(reply) ==>
      && |st'.messages| == |reply.body|
      && forall k :: 0 <= k < |reply.body| ==> st'.messages[k] == Normalize(reply.body[k])
    ensures !Succeeded(reply) ==> st' == st
    ensures st'.users == st.users && st'.unseen == st.unseen && st'.selected == st.selected
  {
    if Succeeded(reply) then st.(messages := NormalizeAll(reply.body)) else st
  }

  function NormalizeAll(ms: seq<Message>): (cs: seq<ClientMessage>)
    ensures |cs| == |ms|
    ensures forall k :: 0 <= k < |ms| ==> cs[k] == Normalize(ms[k])
  {
    seq(|ms|, k requires 0 <= k < |ms| => Normalize(ms[k]))
  }

  /** The state after `sendMessages` and the receiver the POST went to. */
  datatype Sent = Sent(state: State, postedTo: Option<UserId>)

  /** `sendMessages`: with no selected user, reading `selectedUser._id` throws before any
      request and the error is caught; otherwise the message is posted to the selected
      user, and a successful reply appends exactly the normalised saved message. */
  function SendMessage(st: State, reply: Reply<Message>): (r: Sent)
    ensures st.selected.None? ==> r == Sent(st, None)
    ensures st.selected.Some? ==> r.postedTo == Some(st.selected.value.id)
    ensures st.selected.Some? && Succeeded(reply) ==>
      && |r.state.messages| == |st.messages| + 1
      && r.state.messages[..|st.messages|] == st.messages
      && r.state.messages[|st.messages|] == Normalize(reply.body)
    ensures !(st.selected.Some? && Succeeded(reply)) ==> r.state == st
    ensures r.state.users == st.users && r.state.unseen == st.unseen && r.state.selected == st.selected
  {
    if st.selected.None? then Sent(st, None)
    else if Succeeded(reply) then Sent(st.(messages := st.messages + [Normalize(reply.body)]), Some(st.selected.value.id))
    else Sent(st, Some(st.selected.value.id))
  }

  /** The state after a `newMessage` push and the id, if any, of the message the client
      then marks as seen. */
  datatype Received = Received(state: State, markSeen: Option<string>)

  /** The unseen count the badge shows for `sender`: `prev[sender] || 0`. */
  function UnseenCount(unseen: map<UserId, int>, sender: UserId): int {
    if sender in unseen then unseen[sender] else 0
  }

  /** Whether a pushed message belongs to the open conversation. */
  predicate FromSelected(st: State, m: Message) {
    st.selected.Some? && Normalize(m).senderID == st.selected.value.id
  }

  /** The `newMessage` handler: a message from the selected user is appended as seen and
      a mark-seen request is issued for it; any other message leaves the list alone and
      adds one to its sender's unseen count. */
  function OnNewMessage(st: State, m: Message): (r: Received)
    ensures FromSelected(st, m) ==>
      && r.state.messages == st.messages + [Normalize(m.(seen := true))]
      && r.state.unseen == st.unseen
      && r.markSeen == Some(m.id)
    ensures !FromSelected(st, m) ==>
      && r.state.messages == st.messages
      && r.markSeen.None?
      && m.senderId in r.state.unseen
      && r.state.unseen[m.senderId] == UnseenCount(st.unseen, m.senderId) + 1
      && r.state.unseen.Keys == st.unseen.Keys + {m.senderId}
      && (forall u :: u in st.unseen && u != m.senderId ==> r.state.unseen[u] == st.unseen[u])
    ensures r.state.users == st.users && r.state.selected == st.selected
  {
    var n := Normalize(m);
    if FromSelected(st, m) then
      Received(st.(messages := st.messages + [n.(msg := n.msg.(seen := true))]), Some(n.msg.id))
    else
      Received(st.(unseen := st.unseen[n.senderID := UnseenCount(st.unseen, n.senderID) + 1]), None)
  }

  /** Every held message carries `senderID`/`receiverID` copies equal to its document's
      `senderId`/`receiverId`, the field names the rest of the client reads. */
  predicate Normalised(st: State) {
    forall k :: 0 <= k < |st.messages| ==>
      st.messages[k].senderID == st.messages[k].msg.senderId
      && st.messages[k].receiverID == st.messages[k].msg.receiverId
  }

  /** What changes the provider's state: the replies to its three requests, a
      `newMessage` push, and the two setters it exports, `setSelectedUser` and
      `setUnseenMessages`. */
  datatype Action =
    | UsersLoaded(usersReply: Reply<UsersBody>)
    | MessagesLoaded(historyReply: Reply<seq<Message>>)
    | MessageSent(sendReply: Reply<Message>)
    | Pushed(pushed: Message)
    | Selected(user: Option<Profile>)
    | UnseenSet(counts: map<UserId, int>)

  function Apply(st: State, a: Action): State {
    match a
    case UsersLoaded(reply) => GetUsers(st, reply)
    case MessagesLoaded(reply) => GetMessages(st, reply)
    case MessageSent(reply) => SendMessage(st, reply).state
    case Pushed(m) => OnNewMessage(st, m).state
    case Selected(u) => st.(selected := u)
    case UnseenSet(counts) => st.(unseen := counts)
  }

  /** The state after a sequence of actions from the empty initial state. */
  function Run(actions: seq<Action>): State {
    if |actions| == 0 then Initial else Apply(Run(actions[..|actions| - 1]), actions[|actions| - 1])
  }

  lemma ApplyKeepsNormalised(st: State, a: Action)
    requires Normalised(st)
    ensures Normalised(Apply(st, a))
  {
  }

  /** Whatever the server replies and pushes, every message the client holds is
      normalised. */
  lemma {:induction false} RunNormalised(actions: seq<Action>)
    ensures Normalised(Run(actions))
  {
    if |actions| > 0 {
      RunNormalised(actions[..|actions| - 1]);
      ApplyKeepsNormalised(Run(actions[..|actions| - 1]), actions[|actions| - 1]);
    }
  }

  /** The sum of the unseen counts. */
  ghost function TotalUnseen(unseen: map<UserId, int>): int
  {
    if unseen == map[] then 0
    else
      var u := PickKey(unseen);
      unseen[u] + TotalUnseen(unseen - {u})
  }

  ghost function PickKey(m: map<UserId, int>): (u: UserId)
    requires m != map[]
    ensures u in m
  {
    var u :| u in m; u
  }

  /** Each push is accounted for exactly once: either the list grows by one or the
      unseen total does, never both and never neither. */
  lemma OneEffectPerMessage(st: State, m: Message)
    ensures var r := OnNewMessage(st, m).state;
      (|r.messages| - |st.messages|) + (TotalUnseen(r.unseen) - TotalUnseen(st.unseen)) == 1
    ensures var r := OnNewMessage(st, m).state;
      (|r.messages| == |st.messages| + 1) != (TotalUnseen(r.unseen) == TotalUnseen(st.unseen) + 1)
  {
    var r := OnNewMessage(st, m).state;
    if !FromSelected(st, m) {
      TotalUnseenUpdate(st.unseen, m.senderId, UnseenCount(st.unseen, m.senderId) + 1);
    }
  }

  /** Setting one key's count changes the total by the difference. */
  lemma {:induction false} TotalUnseenUpdate(unseen: map<UserId, int>, k: UserId, v: int)
    ensures TotalUnseen(unseen[k := v]) == TotalUnseen(unseen) - UnseenCount(unseen, k) + v
    decreases |unseen|
  {
    var m := unseen[k := v];
    if k in unseen {
      TotalUnseenRemove(unseen, k);
      TotalUnseenRemove(m, k);
      assert m - {k} == unseen - {k};
    } else {
      TotalUnseenRemove(m, k);
      assert m - {k} == unseen;
    }
  }

  /** The total is the count under any one key plus the total of the rest. */
  lemma {:induction false} TotalUnseenRemove(unseen: map<UserId, int>, k: UserId)
    requires k in unseen
    ensures TotalUnseen(unseen) == unseen[k] + TotalUnseen(unseen - {k})
    decreases |unseen|
  {
    var u := PickKey(unseen);
    if u != k {
      var rest := unseen - {u};
      assert k in rest;
      TotalUnseenRemove(rest, k);
      var rest' := unseen - {k};
      assert u in rest';
      TotalUnseenRemove(rest', u);
      assert rest - {k} == rest' - {u};
    }
  }

  /** The socket's listeners, by event name, in registration order. */
  datatype Socket = Socket(listeners: seq<string>)

  function ListenerCount(s: Socket, event: string): nat {
    multiset(s.listeners)[event]
  }

  /** `subscribeToMessages`: with no socket nothing is registered; otherwise one more
      `newMessage` listener. */
  function Subscribe(socket: Option<Socket>): (r: Option<Socket>)
    ensures socket.None? ==> r.None?
    ensures socket.Some? ==> r.Some? && ListenerCount(r.value, "newMessage") == ListenerCount(socket.value, "newMessage") + 1
    ensures socket.Some? ==> forall e :: e != "newMessage" ==> ListenerCount(r.value, e) == ListenerCount(socket.value, e)
  {
    match socket
    case None => None
    case Some(s) =>
      Some(Socket(s.listeners + ["newMessage"]))
  }

  /** `unsubscribeFromMessages`: `socket.off("newMessage")` removes every such listener. */
  function Unsubscribe(socket: Option<Socket>): (r: Option<Socket>)
    ensures socket.None? ==> r.None?
    ensures socket.Some? ==> r.Some? && ListenerCount(r.value, "newMessage") == 0
    ensures socket.Some? ==> forall e :: e != "newMessage" ==> ListenerCount(r.value, e) == ListenerCount(socket.value, e)
  {
    match socket
    case None => None
    case Some(s) => Some(Socket(Without(s.listeners, "newMessage")))
  }

  /** The listener list with every `event` listener removed and the others kept. */
  function Without(names: seq<string>, event: string): (r: seq<string>)
    ensures multiset(r)[event] == 0
    ensures forall e :: e != event ==> multiset(r)[e] == multiset(names)[e]
  {
    if |names| == 0 then []
    else
      assert names == [names[0]] + names[1..];
      (if names[0] == event then [] else [names[0]]) + Without(names[1..], event)
  }

  /** The effect cleanup followed by a new subscription, as happens whenever the socket
      or the selected user changes, leaves exactly one `newMessage` listener. */
  lemma ResubscribeKeepsOneListener(s: Socket)
    ensures var r := Subscribe(Unsubscribe(Some(s)));
      r.Some? && ListenerCount(r.value, "newMessage") == 1
  {
  }
}

=== FILE: chat_view.dfy ===
/** The chat view's send and scroll rules: the text and image send guards, the
    near-bottom test that drives auto-scroll, and the two effects that scroll the
    message list on a conversation switch and on new messages. */
module ChatView {
  import opened JsValues
  import opened Strings

  /** How far from the bottom (in pixels) still counts as "at the bottom". */
  const Threshold: int := 100

  /** The view's local state: the text input, whether auto-scroll is on, the message
      count seen by the last non-initial scroll effect, and the initial-load flag. */
  datatype View = View(input: string, autoScroll: bool, prevLength: nat, initialLoad: bool)

  const Initial := View("", true, 0, true)

  /** What a send handler passes to `sendMessages`. */
  datatype Outgoing = Text(text: string) | Image(dataUrl: string)

  datatype Sending = Sending(view: View, sent: Option<Outgoing>)

  /** `handleSendMessage`: whitespace-only input sends nothing and changes nothing;
      otherwise the trimmed text is sent, then the input is cleared and auto-scroll
      turned on. */
  function SendText(v: View): (r: Sending)
    ensures AllSpace(v.input) ==> r == Sending(v, None)
    ensures !AllSpace(v.input) ==>
      && r.sent.Some? && r.sent.value.Text?
      && r.sent.value.text != [] && r.sent.value.text == Trim(v.input)
      && r.view == v.(input := "", autoScroll := true)
  {
    var text := Trim(v.input);
    if text == "" then Sending(v, None)
    else Sending(v.(input := "", autoScroll := true), Some(Text(text)))
  }

  /** A chosen file: its MIME type and the data URL `FileReader` produces for it. */
  datatype File = File(mimeType: string, dataUrl: string)

  /** `handleSendImage`: no file, or a type not starting with "image/", sends nothing;
      otherwise the file's data URL is sent and auto-scroll turned on. */
  function SendImage(v: View, file: Option<File>): (r: Sending)
    ensures file.None? || !StartsWith(file.value.mimeType, "image/") ==> r == Sending(v, None)
    ensures r.sent.Some? <==> file.Some? && StartsWith(file.value.mimeType, "image/")
    ensures r.sent.Some? ==> r.sent == Some(Image(file.value.dataUrl)) && r.view == v.(autoScroll := true)
  {
    if file.None? || !StartsWith(file.value.mimeType, "image/") then Sending(v, None)
    else Sending(v.(autoScroll := true), Some(Image(file.value.dataUrl)))
  }

  /** The container's scroll metrics. */
  datatype Metrics = Metrics(scrollTop: int, scrollHeight: int, clientHeight: int)

  /** The distance still to scroll is at most the visible height plus the threshold. */
  predicate NearBottom(m: Metrics) {
    m.scrollHeight - m.scrollTop <= m.clientHeight + Threshold
  }

  /** `handleScroll`: with a mounted container, auto-scroll follows the near-bottom test;
      otherwise nothing changes. */
  function OnScroll(v: View, container: Option<Metrics>): (v': View)
    ensures container.None? ==> v' == v
    ensures container.Some? ==> v' == v.(autoScroll := NearBottom(container.value))
  {
    match container
    case None => v
    case Some(m) => v.(autoScroll := NearBottom(m))
  }

  /** Scrolled to the very bottom, auto-scroll is on; more than the threshold above it,
      auto-scroll is off. */
  lemma NearBottomBounds(v: View, m: Metrics)
    ensures m.scrollTop + m.clientHeight == m.scrollHeight ==> OnScroll(v, Some(m)).autoScroll
    ensures m.scrollTop + m.clientHeight + Threshold < m.scrollHeight ==> !OnScroll(v, Some(m)).autoScroll
  {
  }

  /** The effect on a selected user: load that conversation's history, turn auto-scroll
      on and mark the next scroll as the initial one. Returns the user whose messages
      are fetched. */
  datatype Selection = Selection(view: View, fetch: Option<string>)

  function OnSelect(v: View, selected: Option<string>): (r: Selection)
    ensures selected.None? ==> r == Selection(v, None)
    ensures selected.Some? ==> r.fetch == selected && r.view.autoScroll && r.view.initialLoad
    ensures r.view.input == v.input && r.view.prevLength == v.prevLength
  {
    if selected.None? then Selection(v, None)
    else Selection(v.(autoScroll := true, initialLoad := true), selected)
  }

  /** How the effect scrolls the list to its end, if at all. */
  datatype Scroll = NoScroll | Jump | Smooth

  datatype Scrolled = Scrolled(view: View, scroll: Scroll)

  /** The effect on a message-list change, with `length` messages and `anchored` when
      the end-of-list element is mounted. The initial run jumps to the end, clears the
      flag and leaves the remembered length alone; later runs scroll smoothly exactly
      when auto-scroll is on and the list grew, and remember the new length. */
  function OnMessages(v: View, length: nat, anchored: bool): (r: Scrolled)
    ensures !anchored ==> r == Scrolled(v, NoScroll)
    ensures anchored && v.initialLoad ==> r == Scrolled(v.(initialLoad := false), Jump)
    ensures anchored && !v.initialLoad ==>
      && (r.scroll == Smooth <==> v.autoScroll && length > v.prevLength)
      && r.scroll != Jump
      && r.view == v.(prevLength := length)
  {
    if !anchored then Scrolled(v, NoScroll)
    else if v.initialLoad then Scrolled(v.(initialLoad := false), Jump)
    else if v.autoScroll && length > v.prevLength then Scrolled(v.(prevLength := length), Smooth)
    else Scrolled(v.(prevLength := length), NoScroll)
  }

  /** Which of the two effects' dependency lists changed in a commit: the selection
      effect's (`selectedUser`, `getMessages`) and the scroll effect's (`messages`,
      `isAutoScrollEnabled`). */
  datatype Commit = Commit(selectionDeps: bool, scrollDeps: bool)

  /** A commit's outcome: the view, the user whose history is fetched, and the scroll. */
  datatype Committed = Committed(view: View, fetch: Option<string>, scroll: Scroll)

  /** The effects of one commit. React runs, in declaration order, each effect whose
      dependencies changed: the selection effect first, then the scroll effect, which
      sees the initial-load flag the selection effect has just set. */
  function RunEffects(v: View, c: Commit, selected: Option<string>, length: nat, anchored: bool): (r: Committed)
    ensures r.fetch == (if c.selectionDeps then selected else None)
    ensures !c.scrollDeps ==> r.scroll == NoScroll
    ensures c.selectionDeps && selected.Some? ==>
      && r.view == v.(autoScroll := true, initialLoad := !(c.scrollDeps && anchored))
      && r.scroll == (if c.scrollDeps && anchored then Jump else NoScroll)
    ensures !(c.selectionDeps && selected.Some?) && !c.scrollDeps ==> r == Committed(v, None, NoScroll)
    ensures !(c.selectionDeps && selected.Some?) && c.scrollDeps ==>
      r == Committed(OnMessages(v, length, anchored).view, None, OnMessages(v, length, anchored).scroll)
  {
    var s := if c.selectionDeps then OnSelect(v, selected) else Selection(v, None);
    if c.scrollDeps then
      var m := OnMessages(s.view, length, anchored);
      Committed(m.view, s.fetch, m.scroll)
    else Committed(s.view, s.fetch, NoScroll)
  }

  /** The commits one state change leads to: the view afterwards, the user whose history
      is fetched, and what each commit's scroll effect did, in order. */
  datatype Settled = Settled(view: View, fetch: Option<string>, scrolls: seq<Scroll>)

  /** A commit and the one it may cause. The selection effect's
      `setIsAutoScrollEnabled(true)` is a state update: when it changes the value, React
      commits again, and in that commit only the scroll effect runs, since its
      dependency `isAutoScrollEnabled` changed and the selection effect's did not. */
  function Settle(v: View, c: Commit, selected: Option<string>, length: nat, anchored: bool): (r: Settled)
    ensures var first := RunEffects(v, c, selected, length, anchored);
      && r.fetch == first.fetch
      && 1 <= |r.scrolls| <= 2
      && r.scrolls[0] == first.scroll
      && (|r.scrolls| == 2 <==> first.view.autoScroll != v.autoScroll)
      && (|r.scrolls| == 1 ==> r.view == first.view)
    ensures |r.scrolls| == 2 ==> c.selectionDeps && selected.Some? && !v.autoScroll && r.view.autoScroll
  {
    var first := RunEffects(v, c, selected, length, anchored);
    if first.view.autoScroll != v.autoScroll then
      var second := RunEffects(first.view, Commit(false, true), None, length, anchored);
      Settled(second.view, first.fetch, [first.scroll, second.scroll])
    else Settled(first.view, first.fetch, [first.scroll])
  }

  /** The commits that follow a change of the message list. The list is state of the chat
      provider, and as written every provider render creates a new `getMessages`, which
      is a dependency of the selection effect, so both effects run. With a `getMessages`
      that keeps its identity (`stableFetch`), only the scroll effect runs. */
  function ListChanged(v: View, selected: Option<string>, length: nat, anchored: bool, stableFetch: bool): (r: Settled)
    ensures stableFetch ==> r.fetch.None? && |r.scrolls| == 1
    ensures !stableFetch ==> r.fetch == selected
  {
    Settle(v, Commit(!stableFetch, true), selected, length, anchored)
  }

  /** The commits that follow selecting a user (or clearing the selection): the selected
      user changed, so the selection effect runs whatever `getMessages` is; the list and
      auto-scroll have not changed yet, so the scroll effect does not. */
  function SelectCommit(v: View, selected: Option<string>, length: nat, anchored: bool): (r: Settled)
    ensures r.fetch == selected
    ensures |r.scrolls| >= 1 && r.scrolls[0] == NoScroll
    ensures selected.Some? ==>
      && r.view.autoScroll
      && (|r.scrolls| == 2 <==> !v.autoScroll)
      && (r.view.initialLoad <==> v.autoScroll || !anchored)
  {
    Settle(v, Commit(true, false), selected, length, anchored)
  }

  /** The commit that follows a scroll of the container: `handleScroll` updates
      auto-scroll, and the scroll effect runs when that value changed. */
  function ScrollCommit(v: View, m: Metrics, length: nat): (r: Settled)
    ensures r.view.autoScroll == NearBottom(m)
    ensures r.fetch.None? && |r.scrolls| == 1
  {
    var v' := OnScroll(v, Some(m));
    Settle(v', Commit(false, v'.autoScroll != v.autoScroll), None, length, true)
  }

  /** As written, a change of the list while a user is selected jumps to its end
      wherever the user has scrolled, so the near-bottom test never holds a new
      message back; scrolled away, the user even gets a second, smooth scroll once the
      selection effect has turned auto-scroll back on. */
  lemma AsWrittenListChangeJumps(v: View, m: Metrics, user: string, before: nat, after: nat)
    ensures ListChanged(v, Some(user), after, true, false).scrolls[0] == Jump
    ensures !v.autoScroll && after > v.prevLength ==>
              ListChanged(v, Some(user), after, true, false).scrolls == [Jump, Smooth]
    ensures ListChanged(ScrollCommit(v, m, before).view, Some(user), after, true, false).scrolls[0] == Jump
  {
  }

  /** Switching conversation while scrolled away. The selection turns auto-scroll back
      on, and the commit that causes spends the initial-load jump on the previous
      conversation's list. As written, the history reply then jumps again, to the new
      conversation's end. With a stable `getMessages` it does not: it scrolls smoothly
      only if the history is longer than the length remembered from before the switch,
      and otherwise the new conversation is not scrolled at all. */
  lemma SwitchWhileScrolledAway(v: View, user: string, before: nat, after: nat)
    requires !v.autoScroll && !v.initialLoad
    ensures var s := SelectCommit(v, Some(user), before, true);
      && s.fetch == Some(user) && s.scrolls == [NoScroll, Jump]
      && ListChanged(s.view, Some(user), after, true, false).scrolls == [Jump]
      && ListChanged(s.view, Some(user), after, true, true).scrolls
         == (if after > v.prevLength then [Smooth] else [NoScroll])
  {
  }

  /** The view after the commits that follow a series of history replies for `user`,
      with the list's length after each, and how many of those commits fetched again. */
  datatype Replayed = Replayed(view: View, fetches: nat)

  function Replies(v: View, user: string, lengths: seq<nat>, stableFetch: bool): Replayed
    decreases |lengths|
  {
    if |lengths| == 0 then Replayed(v, 0)
    else
      var p := Replies(v, user, lengths[..|lengths| - 1], stableFetch);
      var c := ListChanged(p.view, Some(user), lengths[|lengths| - 1], true, stableFetch);
      Replayed(c.view, p.fetches + (if c.fetch.Some? then 1 else 0))
  }

  /** As written, every history reply for the selected user causes another fetch of
      that history, so the requests never stop. */
  lemma {:induction false} AsWrittenHistoryRefetches(v: View, user: string, lengths: seq<nat>)
    ensures Replies(v, user, lengths, false).fetches == |lengths|
  {
    if |lengths| > 0 {
      AsWrittenHistoryRefetches(v, user, lengths[..|lengths| - 1]);
    }
  }

  /** With a stable `getMessages`, no history reply causes a fetch: the history is
      fetched once per selection. */
  lemma {:induction false} StableFetchSettles(v: View, user: string, lengths: seq<nat>)
    ensures Replies(v, user, lengths, true).fetches == 0
  {
    if |lengths| > 0 {
      StableFetchSettles(v, user, lengths[..|lengths| - 1]);
    }
  }

  /** With a stable `getMessages`, the last scroll decides whether the list follows new
      messages: a later change that grows the list scrolls smoothly exactly when the
      scroll ended near the bottom, in one commit, and nothing is fetched. */
  lemma ScrollDecidesFollow(v: View, m: Metrics, selected: Option<string>, before: nat, after: nat)
    requires !v.initialLoad && after > before && after > v.prevLength
    ensures var r := ListChanged(ScrollCommit(v, m, before).view, selected, after, true, true);
      && r.scrolls == (if NearBottom(m) then [Smooth] else [NoScroll])
      && r.fetch.None?
  {
  }

  /** With a stable `getMessages`, a send that goes out scrolls the grown list smoothly
      to the new message, wherever the user had scrolled: the send turns auto-scroll on
      in the same commit that adds the message. */
  lemma SendScrollsIntoView(v: View, file: Option<File>, selected: Option<string>, length: nat)
    requires !v.initialLoad && length > v.prevLength
    ensures SendText(v).sent.Some? ==>
              ListChanged(SendText(v).view, selected, length, true, true).scrolls == [Smooth]
    ensures SendImage(v, file).sent.Some? ==>
              ListChanged(SendImage(v, file).view, selected, length, true, true).scrolls == [Smooth]
  {
  }

  /** The initial jump does not record the list's length, so the next run compares the
      list against the count from before the conversation switch: with auto-scroll on it
      scrolls smoothly again although the list has not changed since the jump. */
  lemma StaleLengthAfterSwitch(v: View, user: string, length: nat)
    requires v.prevLength < length
    ensures var a := OnSelect(v, Some(user)).view;
      var b := OnMessages(a, length, true);
      var c := OnMessages(b.view, length, true);
      && b.scroll == Jump && b.view.prevLength == v.prevLength
      && c.scroll == Smooth && c.view.prevLength == length
  {
  }

  /** A second run with an unchanged list never scrolls: the first one already stored its
      length. */
  lemma NoRescrollWithoutGrowth(v: View, length: nat)
    requires !v.initialLoad
    ensures OnMessages(OnMessages(v, length, true).view, length, true).scroll == NoScroll
  {
  }

  /** A sent text has no whitespace at either end and is a non-empty part of the input. */
  lemma SentTextIsTrimmed(v: View)
    requires !AllSpace(v.input)
    ensures var t := SendText(v).sent.value.text;
      !IsSpace(t[0]) && !IsSpace(t[|t| - 1])
  {
  }
}

=== FILE: js_values.dfy ===
/** The few JavaScript value semantics the chat application's decisions depend on:
    a request or query value that may be absent (`undefined`), truthiness of such a
    value, and the coercion of a value to an object property key. */
module JsValues {

  datatype Option<+T> = None | Some(value: T) {

    /** `v ?? fallback`: the value when one is present, `fallback` when it is `undefined`. */
    function ValueOr(fallback: T): T {
      match this
      case Some(v) => v
      case None => fallback
    }
  }

  /** A string-valued request field, handshake parameter or header: `None` is `undefined`. */
  type Field = Option<string>

  /** `!!v` for a string-or-undefined value: only a non-empty string is truthy. */
  predicate Truthy(f: Field) {
    f.Some? && f.value != ""
  }

  /** The property key a value becomes when used as `obj[v]`: `undefined` is coerced to
      the string "undefined". */
  function PropertyKey(f: Field): (k: string)
    ensures f.Some? ==> k == f.value
    ensures f.None? ==> k == "undefined"
  {
    f.ValueOr("undefined")
  }

  /** The one key an assignment `obj[k] = v` with a string `v` on a plain `{}` object does
      not create: it reaches the `__proto__` setter inherited from `Object.prototype`,
      which ignores a value that is not an object. */
  const ProtoKey := "__proto__"

  /** Whether `obj[k] = v`, for a plain object and a string value, creates the own
      property `k`. */
  predicate CreatesOwnKey(k: string) {
    k != ProtoKey
  }

  /** `a || b` over string-or-undefined values: `a` when it is truthy, otherwise `b`. */
  function Or(a: Field, b: Field): (r: Field)
    ensures Truthy(a) ==> r == a
    ensures !Truthy(a) ==> r == b
  {
    if Truthy(a) then a else b
  }
}

=== FILE: login_form.dfy ===
/** The login page's form: a mode ("Sign up" or "Login"), the flag that shows the second
    signup step (the bio), and four field values. Events are a submit, a mode switch,
    the back arrow, and an edit of a field. */
module LoginForm {

  /** `currState`: "Sign up" or "Login". */
  datatype Mode = SignUp | LogIn

  datatype Form = Form(
    mode: Mode,
    submitted: bool,
    fullName: string,
    email: string,
    password: string,
    bio: string)

  const Initial := Form(SignUp, false, "", "", "", "")

  datatype FieldName = FullName | Email | Password | Bio

  datatype Event = Submit | SwitchMode(to: Mode) | Back | Edit(field: FieldName, value: string)

  /** The `login(state, credentials)` call a submit makes. */
  datatype LoginCall = LoginCall(kind: string, fullName: string, email: string, password: string, bio: string)

  /** What a step does besides changing the form: nothing, an error toast, or the call. */
  datatype Effect = NoEffect | Toast(message: string) | Call(call: LoginCall)

  datatype Transition = Transition(form: Form, effect: Effect)

  /** The inputs the page renders in the form's current state; only they can be edited. */
  predicate Shown(f: Form, field: FieldName) {
    match f.mode
    case SignUp => if f.submitted then field == Bio else field != Bio
    case LogIn => field == Email || field == Password
  }

  /** `onSubmitHandler` */
  function OnSubmit(f: Form): (t: Transition)
    ensures f.mode == SignUp && !f.submitted ==> t == Transition(f.(submitted := true), NoEffect)
    ensures f.mode == SignUp && f.submitted && (f.fullName == "" || f.email == "" || f.password == "" || f.bio == "") ==>
              t == Transition(f, Toast("Please fill all the details"))
    ensures f.mode == LogIn && (f.email == "" || f.password == "") ==>
              t == Transition(f, Toast("Please enter email and password"))
    ensures t.effect.Call? <==>
      if f.mode == SignUp then f.submitted && f.fullName != "" && f.email != "" && f.password != "" && f.bio != ""
      else f.email != "" && f.password != ""
    ensures t.effect.Call? ==>
      && t.form == f
      && t.effect.call == LoginCall(if f.mode == SignUp then "signup" else "login", f.fullName, f.email, f.password, f.bio)
  {
    if f.mode == SignUp && !f.submitted then Transition(f.(submitted := true), NoEffect)
    else if f.mode == SignUp && (f.fullName == "" || f.email == "" || f.password == "" || f.bio == "") then
      Transition(f, Toast("Please fill all the details"))
    else if f.mode == LogIn && (f.email == "" || f.password == "") then
      Transition(f, Toast("Please enter email and password"))
    else
      Transition(f, Call(LoginCall(if f.mode == SignUp then "signup" else "login", f.fullName, f.email, f.password, f.bio)))
  }

  /** `handleModeSwitch` */
  function SwitchTo(f: Form, m: Mode): (f': Form)
    ensures f'.mode == m && !f'.submitted
    ensures f'.fullName == "" && f'.email == "" && f'.password == "" && f'.bio == ""
  {
    Form(m, false, "", "", "", "")
  }

  function Set(f: Form, field: FieldName, v: string): Form {
    match field
    case FullName => f.(fullName := v)
    case Email => f.(email := v)
    case Password => f.(password := v)
    case Bio => f.(bio := v)
  }

  /** One event. The back arrow clears the step flag and keeps the values; an edit of an
      input the page does not show cannot happen and changes nothing. */
  function Step(f: Form, e: Event): (t: Transition)
    ensures e.Submit? ==> t == OnSubmit(f)
    ensures e.SwitchMode? ==> t == Transition(SwitchTo(f, e.to), NoEffect)
    ensures e.Back? ==> t.form == f.(submitted := false) && t.effect == NoEffect
    ensures e.Edit? && Shown(f, e.field) ==> t.form == Set(f, e.field, e.value) && t.effect == NoEffect
    ensures e.Edit? && !Shown(f, e.field) ==> t == Transition(f, NoEffect)
  {
    match e
    case Submit => OnSubmit(f)
    case SwitchMode(m) => Transition(SwitchTo(f, m), NoEffect)
    case Back => Transition(f.(submitted := false), NoEffect)
    case Edit(field, v) => if Shown(f, field) then Transition(Set(f, field, v), NoEffect) else Transition(f, NoEffect)
  }

  /** The step flag is only ever set in "Sign up" mode. */
  predicate Valid(f: Form) {
    f.submitted ==> f.mode == SignUp
  }

  /** The form after a sequence of events from the initial one. */
  function Run(events: seq<Event>): Form {
    if |events| == 0 then Initial else Step(Run(events[..|events| - 1]), events[|events| - 1]).form
  }

  lemma StepKeepsValid(f: Form, e: Event)
    requires Valid(f)
    ensures Valid(Step(f, e).form)
  {
  }

  /** Every reachable form is valid. */
  lemma {:induction false} RunValid(events: seq<Event>)
    ensures Valid(Run(events))
  {
    if |events| > 0 {
      RunValid(events[..|events| - 1]);
      StepKeepsValid(Run(events[..|events| - 1]), events[|events| - 1]);
    }
  }

  /** A submit that does not call `login` changes at most the step flag, and a submit
      that only reveals the bio step keeps the four values. */
  lemma SubmitKeepsValues(f: Form)
    ensures var t := OnSubmit(f);
      && t.form.(submitted := f.submitted) == f
      && (t.form != f ==> t.form == f.(submitted := true) && t.effect == NoEffect)
  {
  }

  /** A signup needs two submits: the first one from step one never calls `login`. */
  lemma SignupTakesTwoSubmits(f: Form)
    requires f.mode == SignUp && !f.submitted
    ensures !OnSubmit(f).effect.Call?
    ensures OnSubmit(f).form.submitted
  {
  }
}

=== FILE: messages.dfy ===
/** The persisted message record: sender and receiver ids are required, `text` and `image`
    default to the empty string, and `seen` defaults to false. */
module Messages {
  import opened JsValues

  datatype Message = Message(
    id: string,
    senderId: string,
    receiverId: string,
    text: string,
    image: string,
    seen: bool)

  /** The fields a `Message.create` call supplies; `None` is an omitted field. */
  datatype Draft = Draft(
    senderId: Option<string>,
    receiverId: Option<string>,
    text: Option<string>,
    image: Option<string>,
    seen: Option<bool>)

  /** A created document, or the validation failure naming each missing required path in
      schema order. */
  datatype Created = Created(msg: Message) | ValidationFailed(missing: seq<string>)

  /** The required paths a draft leaves out, in schema order. */
  function MissingPaths(d: Draft): (paths: seq<string>)
    ensures "senderId" in paths <==> d.senderId.None?
    ensures "receiverId" in paths <==> d.receiverId.None?
    ensures |paths| <= 2
  {
    (if d.senderId.None? then ["senderId"] else []) + (if d.receiverId.None? then ["receiverId"] else [])
  }

  /** Validation and defaulting of `messageSchema`; `id` is the `_id` the database
      assigns. */
  function Create(id: string, d: Draft): (r: Created)
    ensures r.ValidationFailed? <==> d.senderId.None? || d.receiverId.None?
    ensures r.ValidationFailed? ==> |r.missing| > 0 && r.missing == MissingPaths(d)
    ensures r.Created? ==>
      && r.msg.id == id
      && r.msg.senderId == d.senderId.value
      && r.msg.receiverId == d.receiverId.value
      && r.msg.text == d.text.ValueOr("")
      && r.msg.image == d.image.ValueOr("")
      && r.msg.seen == d.seen.ValueOr(false)
  {
    if d.senderId.None? || d.receiverId.None? then ValidationFailed(MissingPaths(d))
    else Created(Message(id, d.senderId.value, d.receiverId.value,
                         d.text.ValueOr(""), d.image.ValueOr(""), d.seen.ValueOr(false)))
  }

  /** The draft that spells out every field of a stored message. */
  function DraftOf(m: Message): Draft {
    Draft(Some(m.senderId), Some(m.receiverId), Some(m.text), Some(m.image), Some(m.seen))
  }

  /** Creating a message from its own fields gives that message back. */
  lemma CreateDraftOf(m: Message)
    ensures Create(m.id, DraftOf(m)) == Created(m)
  {
  }

  /** A fresh message with only its ids given is unseen and has empty text and image. */
  lemma CreateDefaults(id: string, sender: string, receiver: string)
    ensures Create(id, Draft(Some(sender), Some(receiver), None, None, None))
         == Created(Message(id, sender, receiver, "", "", false))
  {
  }

  /** The schema does not relate `text` and `image`: a message with both empty and one
      with both set are accepted alike. */
  lemma TextAndImageUnrelated(id: string, sender: string, receiver: string, text: string, image: string)
    ensures Create(id, Draft(Some(sender), Some(receiver), Some(""), Some(""), None)).Created?
    ensures Create(id, Draft(Some(sender), Some(receiver), Some(text), Some(image), None)).Created?
  {
  }
}

=== FILE: presence.dfy ===
/** The server's presence registry: a map from user id to the id of that user's socket,
    written when a socket connects with a `userId` handshake parameter, deleted when it
    disconnects, and broadcast (as its key set) to every client after each change. */
module Presence {
  import opened JsValues

  type UserId = string
  type SocketId = string

  /** `userSocketmap` */
  type Registry = map<UserId, SocketId>

  /** The registry after a connection event, and the `getOnlineUsers` payload sent to all. */
  datatype Update = Update(registry: Registry, broadcast: set<UserId>)

  /** Whether `if (userId) userSocketmap[userId] = socket.id` stores an entry: the id must
      be truthy, and it must not be "__proto__", whose assignment the inherited setter
      swallows. */
  predicate Registers(userId: Field) {
    Truthy(userId) && CreatesOwnKey(userId.value)
  }

  /** The `connection` handler: a truthy handshake `userId` is mapped to the new socket,
      replacing any earlier socket of that user; an absent or empty one, or "__proto__",
      changes nothing. Either way the key set is broadcast. */
  function Connect(reg: Registry, userId: Field, sid: SocketId): (r: Update)
    ensures r.broadcast == r.registry.Keys
    ensures Registers(userId) ==> userId.value in r.registry && r.registry[userId.value] == sid
    ensures !Registers(userId) ==> r.registry == reg
    ensures userId == Some(ProtoKey) ==> r.registry == reg
    ensures r.registry.Keys == reg.Keys + (if Registers(userId) then {userId.value} else {})
    ensures forall u :: u in reg && (!Registers(userId) || u != userId.value) ==>
              u in r.registry && r.registry[u] == reg[u]
  {
    var reg' := if Registers(userId) then reg[userId.value := sid] else reg;
    Update(reg', reg'.Keys)
  }

  /** The `disconnect` handler: deletes the entry under the handshake `userId` of the
      closing socket, whatever socket that entry names. An absent `userId` is coerced to
      the key "undefined". The key set is then broadcast. */
  function Disconnect(reg: Registry, userId: Field): (r: Update)
    ensures r.broadcast == r.registry.Keys
    ensures PropertyKey(userId) !in r.registry
    ensures r.registry.Keys == reg.Keys - {PropertyKey(userId)}
    ensures forall u :: u in r.registry ==> r.registry[u] == reg[u]
  {
    var reg' := reg - {PropertyKey(userId)};
    Update(reg', reg'.Keys)
  }

  /** The compare-and-delete disconnect: the entry under the closing socket's `userId` is
      deleted only if it still names that socket. */
  function DisconnectOwn(reg: Registry, userId: Field, sid: SocketId): (r: Update)
    ensures r.broadcast == r.registry.Keys
    ensures forall u :: u in r.registry ==> u in reg && r.registry[u] == reg[u]
    ensures forall u :: u in reg && reg[u] != sid ==> u in r.registry
    ensures forall u :: u in reg && reg[u] == sid && u == PropertyKey(userId) ==> u !in r.registry
  {
    var k := PropertyKey(userId);
    var reg' := if k in reg && reg[k] == sid then reg - {k} else reg;
    Update(reg', reg'.Keys)
  }

  /** A socket event, as socket.io delivers it: a new socket with its handshake `userId`,
      or the closing of an open socket. */
  datatype Event = Open(sid: SocketId, userId: Field) | Close(sid: SocketId)

  /** The server's state: the registry, the open sockets with the handshake `userId` each
      one's `disconnect` handler captured, and the last `getOnlineUsers` payload. */
  datatype Server = Server(registry: Registry, sockets: map<SocketId, Field>, online: set<UserId>)

  const Init := Server(map[], map[], {})

  /** One event. Socket ids name one socket each, so an `Open` of an id already open and
      a `Close` of an id not open are not events socket.io delivers; they change nothing.
      `fixed` selects the compare-and-delete disconnect instead of the one as written. */
  function Step(s: Server, e: Event, fixed: bool): (s': Server)
    ensures s'.online == s'.registry.Keys || s' == s
    ensures s.online == s.registry.Keys ==> s'.online == s'.registry.Keys
    ensures e.Open? && e.sid !in s.sockets ==>
      && s'.sockets == s.sockets[e.sid := e.userId]
      && s'.registry == Connect(s.registry, e.userId, e.sid).registry
    ensures e.Close? && e.sid in s.sockets ==> s'.sockets == s.sockets - {e.sid}
    ensures e.Close? && e.sid in s.sockets && !fixed ==>
      s'.registry == Disconnect(s.registry, s.sockets[e.sid]).registry
    ensures e.Close? && e.sid in s.sockets && fixed ==>
      s'.registry == DisconnectOwn(s.registry, s.sockets[e.sid], e.sid).registry
    ensures (e.Open? && e.sid in s.sockets) || (e.Close? && e.sid !in s.sockets) ==> s' == s
  {
    match e
    case Open(sid, userId) =>
      if sid in s.sockets then s
      else
        var u := Connect(s.registry, userId, sid);
        Server(u.registry, s.sockets[sid := userId], u.broadcast)
    case Close(sid) =>
      if sid !in s.sockets then s
      else
        var userId := s.sockets[sid];
        var u := if fixed then DisconnectOwn(s.registry, userId, sid) else Disconnect(s.registry, userId);
        Server(u.registry, s.sockets - {sid}, u.broadcast)
  }

  /** The state after a sequence of events, starting from an empty registry. */
  function Run(t: seq<Event>, fixed: bool): Server
  {
    if |t| == 0 then Init else Step(Run(t[..|t| - 1], fixed), t[|t| - 1], fixed)
  }

  /** Every entry names an open socket whose handshake `userId` is that entry's key. */
  ghost predicate EntriesLive(s: Server) {
    forall u :: u in s.registry ==>
      s.registry[u] in s.sockets && s.sockets[s.registry[u]] == Some(u)
  }

  /** With either disconnect, the last `getOnlineUsers` payload is the registry's key set. */
  lemma {:induction false} RunBroadcastsKeys(t: seq<Event>, fixed: bool)
    ensures Run(t, fixed).online == Run(t, fixed).registry.Keys
  {
    if |t| > 0 {
      RunBroadcastsKeys(t[..|t| - 1], fixed);
    }
  }

  /** As written, the registry never names a closed socket or a socket of another user,
      and the last broadcast is the registry's key set. */
  lemma {:induction false} RunEntriesLive(t: seq<Event>)
    ensures EntriesLive(Run(t, false))
    ensures Run(t, false).online == Run(t, false).registry.Keys
  {
    RunBroadcastsKeys(t, false);
    if |t| > 0 {
      RunEntriesLive(t[..|t| - 1]);
      StepEntriesLive(Run(t[..|t| - 1], false), t[|t| - 1]);
    }
  }

  lemma StepEntriesLive(s: Server, e: Event)
    requires EntriesLive(s)
    ensures EntriesLive(Step(s, e, false))
  {
    var s' := Step(s, e, false);
    match e
    case Open(sid, userId) =>
      if sid !in s.sockets {
        forall u | u in s'.registry
          ensures s'.registry[u] in s'.sockets && s'.sockets[s'.registry[u]] == Some(u)
        {
          if Registers(userId) && u == userId.value {
          } else {
            assert s.registry[u] != sid;
          }
        }
      }
    case Close(sid) =>
  }

  /** The stale disconnect, as written: a user who reconnects and whose older socket then
      closes is shown offline although the newer socket is still open. */
  lemma StaleDisconnect(s: Server, u: UserId, s1: SocketId, s2: SocketId)
    requires s1 != s2 && s1 !in s.sockets && s2 !in s.sockets && u != ""
    ensures var s' := Step(Step(Step(s, Open(s1, Some(u)), false), Open(s2, Some(u)), false), Close(s1), false);
      && u !in s'.registry && u !in s'.online
      && s2 in s'.sockets && s'.sockets[s2] == Some(u)
  {
  }

  /** A socket opened without a `userId` registers nothing, yet its disconnect deletes
      the entry of a user whose id is the string "undefined". */
  lemma AnonymousDisconnect(s: Server, sid: SocketId)
    requires sid !in s.sockets && "undefined" in s.registry
    ensures var s' := Step(Step(s, Open(sid, None), false), Close(sid), false);
      "undefined" !in s'.registry && s'.registry.Keys == s.registry.Keys - {"undefined"}
  {
  }

  /** The newest socket opened under each user id, in the order events arrive. */
  function Latest(t: seq<Event>): map<UserId, SocketId>
  {
    if |t| == 0 then map[]
    else
      var m := Latest(t[..|t| - 1]);
      match t[|t| - 1]
      case Open(sid, userId) => if Registers(userId) then m[userId.value := sid] else m
      case Close(_) => m
  }

  /** Every socket id ever opened. */
  function Opened(t: seq<Event>): set<SocketId>
  {
    if |t| == 0 then {}
    else Opened(t[..|t| - 1]) + (if t[|t| - 1].Open? then {t[|t| - 1].sid} else {})
  }

  /** Socket ids are never reused. */
  predicate FreshIds(t: seq<Event>)
  {
    |t| == 0 || (FreshIds(t[..|t| - 1]) && (t[|t| - 1].Open? ==> t[|t| - 1].sid !in Opened(t[..|t| - 1])))
  }

  /** "Last connection wins": the registry holds exactly the users whose newest socket is
      still open, each mapped to that socket. */
  ghost predicate LastConnectionWins(s: Server, latest: map<UserId, SocketId>) {
    && (forall u :: u in s.registry <==> u in latest && latest[u] in s.sockets)
    && (forall u :: u in s.registry ==> s.registry[u] == latest[u])
  }

  ghost predicate FixedInvariant(s: Server, t: seq<Event>) {
    var latest := Latest(t);
    && LastConnectionWins(s, latest)
    && (forall u :: u in latest && latest[u] in s.sockets ==> s.sockets[latest[u]] == Some(u))
    && (forall u :: u in latest ==> latest[u] in Opened(t))
    && s.sockets.Keys <= Opened(t)
  }

  /** With the compare-and-delete disconnect, last connection wins after every sequence
      of events with fresh socket ids. */
  lemma {:induction false} FixedRunLastConnectionWins(t: seq<Event>)
    requires FreshIds(t)
    ensures LastConnectionWins(Run(t, true), Latest(t))
  {
    FixedRunInvariant(t);
  }

  lemma {:induction false} FixedRunInvariant(t: seq<Event>)
    requires FreshIds(t)
    ensures FixedInvariant(Run(t, true), t)
  {
    if |t| > 0 {
      var p := t[..|t| - 1];
      var e := t[|t| - 1];
      FixedRunInvariant(p);
      var s := Run(p, true);
      var s' := Run(t, true);
      assert s' == Step(s, e, true);
      var latest := Latest(p);
      var latest' := Latest(t);
      match e
      case Open(sid, userId) =>
        assert sid !in Opened(p);
        assert sid !in s.sockets;
        assert Opened(t) == Opened(p) + {sid};
        forall u | u in latest
          ensures latest[u] != sid
        {
        }
      case Close(sid) =>
        assert latest' == latest;
        assert Opened(t) == Opened(p);
        if sid in s.sockets {
          forall u
            ensures u in s'.registry <==> u in latest' && latest'[u] in s'.sockets
          {
            if u in latest && latest[u] == sid {
              assert s.sockets[sid] == Some(u);
            }
          }
        }
    }
  }

  /** As written, last connection does not win: reconnecting and then closing the older
      socket breaks it, although socket ids are fresh. */
  lemma AsWrittenLastConnectionLoses()
    ensures var t := [Open("s1", Some("u")), Open("s2", Some("u")), Close("s1")];
      FreshIds(t) && !LastConnectionWins(Run(t, false), Latest(t))
  {
    var e1, e2, e3 := Open("s1", Some("u")), Open("s2", Some("u")), Close("s1");
    var t := [e1, e2, e3];
    assert t[..2] == [e1, e2];
    assert t[..2][..1] == [e1];
    assert [e1, e2][..1] == [e1];
    assert [e1][..0] == [];
    assert Latest([e1]) == map["u" := "s1"];
    assert Opened([e1]) == {"s1"};
    var s1 := Run([e1], false);
    assert Run([e1][..0], false) == Init;
    assert s1 == Step(Init, e1, false);
    assert Registers(Some("u"));
    assert s1.registry == map["u" := "s1"];
    assert s1.sockets == map["s1" := Some("u")];
    assert FreshIds([e1, e2]);
    assert Latest([e1, e2]) == map["u" := "s2"];
    var s2 := Run([e1, e2], false);
    assert s2 == Step(s1, e2, false);
    assert s2.registry == map["u" := "s2"];
    assert s2.sockets == map["s1" := Some("u"), "s2" := Some("u")];
    var s3 := Run(t, false);
    assert s3 == Step(s2, e3, false);
    assert "u" !in s3.registry;
    assert "s2" in s3.sockets;
  }
}

=== FILE: strings.dfy ===
/** The JavaScript string built-ins the chat application uses: `trim`, `split` on a
    one-character separator, and `startsWith`. */
module Strings {

  /** The code points `String.prototype.trim` strips: the ECMAScript WhiteSpace and
      LineTerminator characters (tab, vertical tab, form feed, space, no-break space,
      byte order mark, the Unicode space separators, LF, CR, LS, PS). */
  predicate IsSpace(c: char) {
    || c == '\t' || c == '\U{000B}' || c == '\U{000C}' || c == ' ' || c == '\U{00A0}'
    || c == '\U{FEFF}' || c == '\U{1680}' || ('\U{2000}' <= c <= '\U{200A}')
    || c == '\U{202F}' || c == '\U{205F}' || c == '\U{3000}'
    || c == '\n' || c == '\r' || c == '\U{2028}' || c == '\U{2029}'
  }

  predicate AllSpace(s: string) {
    forall i :: 0 <= i < |s| ==> IsSpace(s[i])
  }

  /** The end of the run of whitespace that starts at `from`. */
  function SpaceRunEnd(s: string, from: nat): (i: nat)
    requires from <= |s|
    ensures from <= i <= |s|
    ensures forall k :: from <= k < i ==> IsSpace(s[k])
    ensures i < |s| ==> !IsSpace(s[i])
    decreases |s| - from
  {
    if from < |s| && IsSpace(s[from]) then SpaceRunEnd(s, from + 1) else from
  }

  /** The start of the run of whitespace that ends at `hi`, looking no further left than `lo`. */
  function SpaceRunStart(s: string, lo: nat, hi: nat): (j: nat)
    requires lo <= hi <= |s|
    ensures lo <= j <= hi
    ensures forall k :: j <= k < hi ==> IsSpace(s[k])
    ensures lo < j ==> !IsSpace(s[j - 1])
    decreases hi
  {
    if lo < hi && IsSpace(s[hi - 1]) then SpaceRunStart(s, lo, hi - 1) else hi
  }

  /** `s.trim()`: the infix of `s` left after removing the whitespace on both sides. */
  function Trim(s: string): (r: string)
    ensures exists i, j ::
              && 0 <= i <= j <= |s| && r == s[i..j]
              && (forall k :: 0 <= k < i ==> IsSpace(s[k]))
              && (forall k :: j <= k < |s| ==> IsSpace(s[k]))
    ensures r == [] || (!IsSpace(r[0]) && !IsSpace(r[|r| - 1]))
    ensures r == [] <==> AllSpace(s)
  {
    var i := SpaceRunEnd(s, 0);
    var j := SpaceRunStart(s, i, |s|);
    s[i..j]
  }

  /** Trimming a string that is already trimmed changes nothing. */
  lemma TrimIdempotent(s: string)
    ensures Trim(Trim(s)) == Trim(s)
  {
  }

  /** `s.startsWith(prefix)` */
  predicate StartsWith(s: string, prefix: string) {
    |prefix| <= |s| && s[..|prefix|] == prefix
  }

  /** The index of the first `c` in `s`, or `|s|` when `s` has none. */
  function IndexOf(s: string, c: char): (i: nat)
    ensures i <= |s|
    ensures forall k :: 0 <= k < i ==> s[k] != c
    ensures c !in s[..i]
    ensures i < |s| ==> s[i] == c
  {
    if |s| == 0 || s[0] == c then 0 else 1 + IndexOf(s[1..], c)
  }

  /** `s.split(sep)` for a one-character separator: the maximal separator-free pieces of
      `s`, in order, one more than the number of separators (so never an empty list). */
  function Split(s: string, sep: char): (parts: seq<string>)
    ensures |parts| >= 1
    ensures forall k :: 0 <= k < |parts| ==> sep !in parts[k]
    ensures Join(parts, sep) == s
    decreases |s|
  {
    var i := IndexOf(s, sep);
    if i == |s| then [s]
    else
      var rest := Split(s[i + 1..], sep);
      assert s == s[..i] + [sep] + s[i + 1..];
      [s[..i]] + rest
  }

  /** `parts.join(sep)` */
  function Join(parts: seq<string>, sep: char): string
    requires |parts| >= 1
  {
    if |parts| == 1 then parts[0] else parts[0] + [sep] + Join(parts[1..], sep)
  }

  /** Splitting undoes joining: separator-free pieces come back unchanged. */
  lemma {:induction false} SplitJoin(parts: seq<string>, sep: char)
    requires |parts| >= 1
    requires forall k :: 0 <= k < |parts| ==> sep !in parts[k]
    ensures Split(Join(parts, sep), sep) == parts
    decreases |parts|
  {
    var s := Join(parts, sep);
    if |parts| == 1 {
      IndexOfAbsent(parts[0], sep);
    } else {
      var p := parts[0];
      assert s == p + [sep] + Join(parts[1..], sep);
      IndexOfFirst(p, sep, Join(parts[1..], sep));
      assert s[|p| + 1..] == Join(parts[1..], sep);
      assert s[..|p|] == p;
      SplitJoin(parts[1..], sep);
      assert parts == [p] + parts[1..];
    }
  }

  /** The piece before the first separator comes off the front of a split. */
  lemma SplitFirst(p: string, c: char, rest: string)
    requires c !in p
    ensures Split(p + [c] + rest, c) == [p] + Split(rest, c)
  {
    var s := p + [c] + rest;
    IndexOfFirst(p, c, rest);
    assert s[..|p|] == p;
    assert s[|p| + 1..] == rest;
  }

  /** A separator-free text followed by nothing or by a separator is the first piece. */
  lemma SplitHead(p: string, c: char, rest: string)
    requires c !in p && (rest == [] || rest[0] == c)
    ensures Split(p + rest, c)[0] == p
  {
    if rest == [] {
      assert p + rest == p;
      IndexOfAbsent(p, c);
    } else {
      assert p + rest == p + [c] + rest[1..];
      SplitFirst(p, c, rest[1..]);
    }
  }

  lemma IndexOfAbsent(s: string, c: char)
    requires c !in s
    ensures IndexOf(s, c) == |s|
  {
  }

  lemma IndexOfFirst(p: string, c: char, rest: string)
    requires c !in p
    ensures IndexOf(p + [c] + rest, c) == |p|
  {
    var s := p + [c] + rest;
    assert forall k :: 0 <= k < |p| ==> s[k] == p[k];
    assert s[|p|] == c;
  }
}
